=== FILE: README.md ===
# Transactinator ledger, modelled in Dafny

This project models the account ledger of transactinator, a small payments engine.
The engine reads a stream of records, each shaped `(type, client, tx, amount)`.
It keeps one account per client, holding an available balance, a held balance, a lock flag, a log of applied deposits and withdrawals, and the open disputes on those deposits.
It then writes one row per account, in ascending client order.

The model has three layers, following the source files:

- `transaction.dfy` (module `Transactions`) models the transaction effect model.
  Deposits and withdrawals move funds.
  A dispute is initiated, then resolved or charged back.
  Every value has an `Effect`: what it adds to available and what it adds to held.
- `account.dfy` (module `Accounts`) models the account state machine.
  `New`, `Lock`, the guarded `Apply`, `IsNotLocked` and the four public operations are pure functions.
  Each operation returns a `Step`: the account as the operation left it, plus the outcome.
  This shape is needed because some failure paths in the source still change the account.
  `account_properties.dfy` (module `AccountProperties`) relates several operations: the invariant, the lock, and the dispute round trips.
- `engine.dfy` (module `Engine`) models the loop body of `run`.
  `RunFrom` is the fold over the records and serves as the reference definition.
  `RunLoop` is the loop itself, proved equal to the fold.
  `Write` models the ordering of the output rows.
  `scenarios.dfy` (module `Scenarios`) holds concrete traces and facts about how clients are kept apart.
- `errors.dfy` (module `Errors`) and `wrappers.dfy` (module `Wrappers`) hold the error record and the `Option`/`Outcome` datatypes.

Amounts are `real`.
The source uses exact base-10 decimals. Within the decimal library's range and scale nothing is lost; those limits are left out (see below).
Transaction ids are `u32` and client ids are `u16`; both are subset types of `int` with those ranges.

The model follows the code in these places, some of which a reader might not expect:

- A failed `open_dispute` for lack of funds still records the dispute (`src/account.rs:128-132`). Failure paths are therefore not all atomic.
- `resolve` removes the dispute before it returns `apply`'s result. `chargeback` removes the dispute and locks the account before it returns that result.
- The transaction log belongs to each account, not to the whole run. The same id under another client is accepted.
- Error kinds follow the source's messages, for example `NotEnoughMoney`, `MissingTransaction`, `CannotResolve`.
- Amounts are never checked to be positive. Properties that need a sign say so in their preconditions.

## Model

| member | source | states |
|---|---|---|
| Transactions.MakeDeposit | src/transaction.rs:38-40 | builds a deposit that reports back the tid and amount it was given |
| Transactions.MakeWithdraw | src/transaction.rs:42-44 | builds a withdrawal that reports back the tid and amount it was given |
| Transactions.AmountEffect | src/transaction.rs:47-60 | a funds-moving transaction never touches held (the default `to_hold` of 0, src/transaction.rs:8-10); a deposit adds its amount to available, a withdrawal subtracts it |
| Transactions.Tid | src/transaction.rs:48-53 | `tid()` is the id the transaction was built with: variant, id and amount together determine the transaction |
| Transactions.ConstructorsAreInjective | src/transaction.rs:38-44 | deposits (and withdrawals) built from different ids or amounts differ, and a deposit never equals a withdrawal |
| Transactions.ToResolved | src/transaction.rs:75-81 | yields a value exactly when the dispute is initiated; that value is resolved and carries the same amount |
| Transactions.ToChargebacked | src/transaction.rs:83-89 | yields a value exactly when the dispute is initiated; that value is charged back and carries the same amount |
| Transactions.TerminalDisputeStates | src/transaction.rs:74-90 | resolved and charged-back disputes have no further conversion |
| Transactions.DisputeEffect | src/transaction.rs:94-108 | initiating and resolving move money between available and held without changing the sum; a chargeback leaves available alone and lowers held by the amount |
| Transactions.ToDisputable | src/transaction.rs:115-121 | a deposit becomes an initiated dispute over its own amount |
| Transactions.DisputeRoundTrip | src/transaction.rs:115-121 | opening a dispute on a deposit and resolving it nets to zero on both balances; charging it back instead removes exactly the amount from available plus held |
| Accounts.New | src/account.rs:24-33 | a new account has zero balances, is unlocked, has an empty log and no disputes, and satisfies the account invariant |
| Accounts.Lock | src/account.rs:49-51 | sets the lock and changes nothing else |
| Accounts.Apply | src/account.rs:54-64 | commits both halves of the effect exactly when available stays non-negative, otherwise fails with nothing changed; held is never checked |
| Accounts.Tagged | src/account.rs:94-96 | a failure message becomes a `TransactionError` carrying the transaction id and the operation name; success stays success |
| Accounts.IsNotLocked | src/account.rs:66-73 | passes exactly when the account is unlocked |
| Accounts.ProcessTransaction | src/account.rs:81-97 | fails on a locked account, then on a duplicate tid, then on insufficient funds, each time with the account unchanged; on success only available (by `to_add`) and the log (the new entry) change |
| Accounts.OpenDispute | src/account.rs:106-134 | fails with no change on a locked account, a missing tid, an open dispute or a withdrawal, in that order; otherwise records an initiated dispute over the deposit's amount, and moves the amount from available to held only if available covers it |
| Accounts.Resolve | src/account.rs:142-160 | fails with no change on a locked account, a missing dispute or a non-initiated one; otherwise removes the dispute, and moves the amount back from held to available only if available stays non-negative |
| Accounts.Chargeback | src/account.rs:168-187 | fails with no change on a locked account, a missing dispute or a non-initiated one; otherwise removes the dispute and locks the account, lowering held by the amount only if the funds check passes, with available unchanged |
| AccountProperties.OperationsPreserveValid | src/account.rs:81-187 | every operation, on success and on failure, keeps available ≥ 0 and keeps each open dispute an initiated dispute over the full amount of a logged deposit |
| AccountProperties.LockedAccountIsFrozen | src/account.rs:66-73 | once locked, all four operations fail with `AccountLocked` and return the account unchanged |
| AccountProperties.LockIsMonotonic | src/account.rs:49-51 | no operation clears the lock; only a chargeback on an open initiated dispute sets it |
| AccountProperties.DisputeStateChecksNeverFail | src/account.rs:149-153 | on a valid account the "could not resolve" and "could not chargeback" failures cannot occur, and a chargeback never fails for lack of funds |
| AccountProperties.ResolveUndoesDispute | src/account.rs:142-160 | after a successful dispute, resolve gives back exactly the pre-dispute account; a second resolve fails with the account unchanged |
| AccountProperties.ChargebackAfterDispute | src/account.rs:168-187 | after a successful dispute, a chargeback succeeds, keeps the post-dispute available, lowers held by the amount, closes the dispute and locks the account |
| AccountProperties.ResolvedDepositCanBeDisputedAgain | src/account.rs:92 | a resolved deposit stays in the log, so a new dispute on it succeeds |
| AccountProperties.ProcessAll | src/account.rs:81-97 | processing deposits and withdrawals one after another changes only available and the log, and never replaces a logged entry |
| AccountProperties.SeriesSumsUp | src/account.rs:81-97 | on an unlocked account, a series with new, distinct ids whose every prefix keeps available ≥ 0 is accepted in full: each transaction is logged, the final available is the start plus the signed sum, and held does not move |
| AccountProperties.FailedDisputeStillRecorded | src/account.rs:128-132 | deposit 5, withdraw 5, dispute: the dispute fails but is recorded; a later resolve succeeds with available 5 and held −5 |
| Engine.Lookup | src/engine.rs:41 | returns the stored account, or a fresh `New` account on first reference |
| Engine.Dispatch | src/engine.rs:42-53 | an unknown type fails without calling any operation; dispatch keeps the invariant and the client; a locked account is left as it is; only a chargeback record can lock |
| Engine.DispatchTable | src/engine.rs:42-47 | deposit and withdraw records call `process_transaction` with the matching variant; dispute, resolve and chargeback records call their operations |
| Engine.ProcessRecord | src/engine.rs:41-57 | adds the record's client to the map, stores whatever state the operation left (success or failure) under that client, and touches no other client |
| Engine.ProcessRecordPreservesWellFormed | src/engine.rs:41 | a lazily created account satisfies the invariant and is keyed by its own client id |
| Engine.Reported | src/engine.rs:55-57 | a failed record reports exactly its one error and a successful record reports nothing |
| Engine.RunFrom | src/engine.rs:37-58 | the fold creates exactly the accounts of the clients the records name, those after a failed record included, so a failure does not stop the loop; it reports at most one error per record |
| Engine.Run | src/engine.rs:30-63 | the run over all records, from no accounts, holds exactly the accounts of the clients the records name, each well keyed and valid, with at most one error per record |
| Engine.RunPreservesWellFormed | src/engine.rs:37-58 | every account the fold produces is well keyed, has available ≥ 0 and only well-formed open disputes |
| Engine.FoldAccount | src/engine.rs:41-57 | one client's view of the loop: records dispatched to its account in order; it keeps the client and the account invariant, and a locked account comes through unchanged |
| Engine.RunProjectsToClient | src/engine.rs:37-58 | clients do not interact: each client's account after the run is exactly its starting (or fresh) account with that client's own records dispatched to it in order |
| Engine.LockedAccountStaysFrozen | src/engine.rs:37-58 | a locked account is not changed by any later record |
| Engine.UnreferencedAccountUnchanged | src/engine.rs:37-58 | an account no later record names is not changed |
| Engine.RunLoop | src/engine.rs:35-58 | the in-place loop, reporting errors as they occur, computes exactly the fold from an empty map |
| Engine.Serialize | src/account.rs:35-47 | a row carries the account's client, balances and lock, with total = available + held |
| Engine.SortedClients | src/engine.rs:22 | lists the map's client ids in strictly ascending order, each exactly once |
| Engine.Write | src/engine.rs:17-28 | writes the header `client,available,held,total,locked`, then one row per account in ascending client order |
| Scenarios.TwoDepositsAccumulate | src/account.rs:81-97 | deposits of 5 and 2 leave 7 available |
| Scenarios.WithdrawalAfterDeposits | src/account.rs:81-97 | withdrawing 1.5 then leaves 5.5; a withdrawal of 6 then fails with nothing changed |
| Scenarios.SecondClientOverdraft | src/account.rs:81-97 | a second client deposits 2; its withdrawal of 3 then fails with nothing changed |
| Scenarios.DisputeThenChargeback | src/account.rs:168-187 | deposit 5, dispute, chargeback ends with 0 available, 0 held, locked |
| Scenarios.ResolveTwice | src/account.rs:142-160 | deposit 5, dispute, resolve, resolve: the second resolve fails with a missing dispute; the account holds 5 available, 0 held |
| Scenarios.TransactionIdsArePerClient | src/account.rs:81-97 | a deposit of a non-negative amount is accepted whenever its own client's account is unlocked and has not used the tid, whatever other clients' logs hold |
| Scenarios.DisputeLooksOnlyAtOwnLog | src/account.rs:106-112 | a dispute on a tid absent from its own client's log fails, and only creates that client's account |
| Scenarios.UnknownKindOnlyCreatesAccount | src/engine.rs:48-52 | an unknown record type reports an error and changes the map only by creating its client's account |

## Left out

- Reading the CSV input, opening the file and writing to stdout and stderr in `engine::run` and `engine::write` are left out. They are I/O over the csv and serde crates. The reported errors are collected in `RunResult.errors` instead.
- `src/main.rs` is left out. It is command-line plumbing and exit handling.
- Rounding to four decimal places and the decimal-to-text formatting of `Account::serialize` are left out. They follow the decimal library's rounding rules. `Serialize` keeps the unrounded values with total = available + held.
- Decimal overflow and scale limits are left out. They belong to the decimal library. Amounts are unbounded exact reals.
- The `Display` text of `TransactionError` in `src/errors.rs` is left out. Errors are a record of tid, operation name and message kind.
- `DisputableTransaction::tid`, which always returns 0, is left out. Nothing uses it.
- A deposit or withdraw record without an amount makes the source panic. Here that case is a precondition (`HasAmount`) rather than a modelled abort.
- The test harness in `tests/cli_tests.rs` is left out. Its input and expected output files are not part of this model. The traces in `Scenarios` illustrate behaviours some of these tests are named after; they are not the tests' inputs.
- Engine.Dispatch: its own contract does not list which operation each record type calls. That table is stated separately by `Engine.DispatchTable`.
- Engine.RunFrom: its contract gives only the set of accounts and a bound on the errors. What the fold does to each account is stated by `Engine.RunProjectsToClient`, which equates it with the per-client fold `Engine.FoldAccount` over that client's own records.
- Engine.Write: rows are in ascending order of their `client` field only when every account is stored under its own id. Every run produces such a map (`RunLoop`). The visiting order of the keys is ascending for any map.
- Three traces are stated per account in `Scenarios`, not over `Run`: two clients depositing and withdrawing; deposit, dispute, chargeback; deposit, dispute, resolve twice. Each step of a trace is one account operation. `Engine.RunProjectsToClient` shows that each client's account after a run is exactly the per-client fold of its own records, so each trace is what the run leaves for that client.

=== FILE: account.dfy ===
/**
  One client's account: balances, lock flag, the log of applied funds-moving
  transactions and the open disputes. Every operation is a pure function from
  the account before the call to the account after it together with the
  call's outcome, because some failure paths still change the account.
 */
module Accounts {
  import opened Wrappers
  import opened Transactions
  import opened Errors

  /** Client ids are unsigned 16-bit integers. */
  type ClientId = x: int | 0 <= x < 0x1_0000

  datatype Account = Account(
    client: ClientId,
    available: Amount,
    held: Amount,
    locked: bool,
    transactionLog: map<TransactionId, AmountTransaction>,
    openDisputes: map<TransactionId, DisputableTransaction>)

  /** The account as an operation left it, and whether the operation succeeded. */
  datatype Step<+E> = Step(account: Account, outcome: Outcome<E>)

  /**
    What holds of every account the operations can reach: available is never
    negative, and every open dispute is an initiated dispute over the full
    amount of a logged deposit. Held is deliberately absent: it can go negative.
   */
  ghost predicate Valid(a: Account)
  {
    && a.available >= 0.0
    && forall tid :: tid in a.openDisputes ==>
         && tid in a.transactionLog
         && a.transactionLog[tid].Deposit?
         && a.openDisputes[tid] == Initiated(a.transactionLog[tid].deposit.amount)
  }

  /** The `total` column of the snapshot (rounding left out). */
  function Total(a: Account): Amount
  {
    a.available + a.held
  }

  /** `Account::new`. */
  function New(client: ClientId): (a: Account)
    ensures a.client == client && !a.locked
    ensures a.available == 0.0 && a.held == 0.0
    ensures a.transactionLog == map[] && a.openDisputes == map[]
    ensures Valid(a)
  {
    Account(client, 0.0, 0.0, false, map[], map[])
  }

  /** Sets the lock flag; nothing else changes. */
  function Lock(a: Account): (r: Account)
    ensures r.locked
    ensures r.client == a.client && r.available == a.available && r.held == a.held
    ensures r.transactionLog == a.transactionLog && r.openDisputes == a.openDisputes
  {
    a.(locked := true)
  }

  /**
    The one guarded writer of the balances: commits both halves of the effect
    exactly when available would stay non-negative. Held is never checked.
   */
  function Apply(a: Account, e: Effect): (r: Step<Message>)
    ensures r.outcome.Pass? <==> a.available + e.toAdd >= 0.0
    ensures r.outcome.Pass? ==> r.account == a.(available := a.available + e.toAdd, held := a.held + e.toHold)
    ensures r.outcome.Fail? ==> r.account == a && r.outcome.error == NotEnoughMoney
    ensures r.outcome.Pass? ==> r.account.available >= 0.0
  {
    var available := a.available + e.toAdd;
    if available >= 0.0 then
      Step(a.(available := available, held := a.held + e.toHold), Pass)
    else
      Step(a, Fail(NotEnoughMoney))
  }

  /** `is_not_locked`. */
  function IsNotLocked(a: Account): (r: Outcome<Message>)
    ensures r.Pass? <==> !a.locked
    ensures r.Fail? ==> r.error == AccountLocked
  {
    if !a.locked then Pass else Fail(AccountLocked)
  }

  /** Tags a message with the transaction id and the operation name. */
  function Tagged(tid: TransactionId, operation: string, o: Outcome<Message>): (r: Outcome<TransactionError>)
    ensures r.Pass? <==> o.Pass?
    ensures o.Fail? ==> r == Fail(TransactionError(tid, operation, o.error))
  {
    match o
    case Pass => Pass
    case Fail(m) => Fail(TransactionError(tid, operation, m))
  }

  const ProcessOp: string := "process_transaction"
  const DisputeOp: string := "open_dispute"
  const ResolveOp: string := "resolve"
  const ChargebackOp: string := "chargeback"

  /**
    `process_transaction`: checks the lock, then the id against the log, then
    the funds; on success applies the effect and logs the transaction. Every
    failure leaves the account as it was.
   */
  function ProcessTransaction(a: Account, t: AmountTransaction): (r: Step<TransactionError>)
    ensures r.outcome.Fail? ==> r.account == a
    ensures r.outcome.Fail? ==> r.outcome.error.tid == Tid(t) && r.outcome.error.operation == ProcessOp
    ensures a.locked ==> r.outcome == Fail(TransactionError(Tid(t), ProcessOp, AccountLocked))
    ensures !a.locked && Tid(t) in a.transactionLog ==>
              r.outcome == Fail(TransactionError(Tid(t), ProcessOp, AlreadyProcessed))
    ensures !a.locked && Tid(t) !in a.transactionLog && a.available + AmountEffect(t).toAdd < 0.0 ==>
              r.outcome == Fail(TransactionError(Tid(t), ProcessOp, NotEnoughMoney))
    ensures r.outcome.Pass? <==>
              !a.locked && Tid(t) !in a.transactionLog && a.available + AmountEffect(t).toAdd >= 0.0
    ensures r.outcome.Pass? ==>
              && r.account.available == a.available + AmountEffect(t).toAdd
              && r.account.held == a.held
              && r.account.locked == a.locked
              && r.account.client == a.client
              && r.account.openDisputes == a.openDisputes
              && r.account.transactionLog == a.transactionLog[Tid(t) := t]
  {
    var tid := Tid(t);
    var unlocked := IsNotLocked(a);
    if unlocked.Fail? then Step(a, Tagged(tid, ProcessOp, unlocked))
    else if tid in a.transactionLog then Step(a, Tagged(tid, ProcessOp, Fail(AlreadyProcessed)))
    else
      var applied := Apply(a, AmountEffect(t));
      if applied.outcome.Fail? then Step(applied.account, Tagged(tid, ProcessOp, applied.outcome))
      else
        var b := applied.account;
        Step(b.(transactionLog := b.transactionLog[tid := t]), Pass)
  }

  /**
    `open_dispute`: checks the lock, that the id is logged, that no dispute is
    open on it and that it is a deposit, in that order; each of these failures
    leaves the account as it was. Then it applies the initiated dispute and
    records it as open, WHETHER OR NOT the funds check passed.
   */
  function OpenDispute(a: Account, tid: TransactionId): (r: Step<TransactionError>)
    ensures r.outcome.Fail? ==> r.outcome.error.tid == tid && r.outcome.error.operation == DisputeOp
    ensures a.locked ==> r == Step(a, Fail(TransactionError(tid, DisputeOp, AccountLocked)))
    ensures !a.locked && tid !in a.transactionLog ==>
              r == Step(a, Fail(TransactionError(tid, DisputeOp, MissingTransaction)))
    ensures !a.locked && tid in a.transactionLog && tid in a.openDisputes ==>
              r == Step(a, Fail(TransactionError(tid, DisputeOp, DisputeAlreadyOpen)))
    ensures !a.locked && tid in a.transactionLog && tid !in a.openDisputes && a.transactionLog[tid].Withdraw? ==>
              r == Step(a, Fail(TransactionError(tid, DisputeOp, NotDisputable)))
    ensures !a.locked && tid in a.transactionLog && tid !in a.openDisputes && a.transactionLog[tid].Deposit? ==>
              var amount := a.transactionLog[tid].deposit.amount;
              && r.account.openDisputes == a.openDisputes[tid := Initiated(amount)]
              && r.account.transactionLog == a.transactionLog
              && r.account.locked == a.locked
              && r.account.client == a.client
              && (r.outcome.Pass? <==> a.available >= amount)
              && (r.outcome.Pass? ==> r.account.available == a.available - amount && r.account.held == a.held + amount)
              && (r.outcome.Fail? ==>
                    && r.account.available == a.available && r.account.held == a.held
                    && r.outcome.error.message == NotEnoughMoney)
  {
    var unlocked := IsNotLocked(a);
    if unlocked.Fail? then Step(a, Tagged(tid, DisputeOp, unlocked))
    else if tid !in a.transactionLog then Step(a, Tagged(tid, DisputeOp, Fail(MissingTransaction)))
    else if tid in a.openDisputes then Step(a, Tagged(tid, DisputeOp, Fail(DisputeAlreadyOpen)))
    else
      match a.transactionLog[tid]
      case Withdraw(_) => Step(a, Tagged(tid, DisputeOp, Fail(NotDisputable)))
      case Deposit(d) =>
        var dispute := ToDisputable(d);
        var applied := Apply(a, DisputeEffect(dispute));
        var b := applied.account;
        Step(b.(openDisputes := b.openDisputes[tid := dispute]), Tagged(tid, DisputeOp, applied.outcome))
  }

  /**
    `resolve`: checks the lock, that a dispute is open on the id and that it can
    be resolved. Then it applies the resolution and removes the dispute,
    WHETHER OR NOT the funds check passed.
   */
  function Resolve(a: Account, tid: TransactionId): (r: Step<TransactionError>)
    ensures r.outcome.Fail? ==> r.outcome.error.tid == tid && r.outcome.error.operation == ResolveOp
    ensures a.locked ==> r == Step(a, Fail(TransactionError(tid, ResolveOp, AccountLocked)))
    ensures !a.locked && tid !in a.openDisputes ==>
              r == Step(a, Fail(TransactionError(tid, ResolveOp, MissingDispute)))
    ensures !a.locked && tid in a.openDisputes && !a.openDisputes[tid].Initiated? ==>
              r == Step(a, Fail(TransactionError(tid, ResolveOp, CannotResolve)))
    ensures !a.locked && tid in a.openDisputes && a.openDisputes[tid].Initiated? ==>
              var amount := a.openDisputes[tid].amount;
              && r.account.openDisputes == a.openDisputes - {tid}
              && r.account.transactionLog == a.transactionLog
              && r.account.locked == a.locked
              && r.account.client == a.client
              && (r.outcome.Pass? <==> a.available + amount >= 0.0)
              && (r.outcome.Pass? ==> r.account.available == a.available + amount && r.account.held == a.held - amount)
              && (r.outcome.Fail? ==>
                    && r.account.available == a.available && r.account.held == a.held
                    && r.outcome.error.message == NotEnoughMoney)
  {
    var unlocked := IsNotLocked(a);
    if unlocked.Fail? then Step(a, Tagged(tid, ResolveOp, unlocked))
    else if tid !in a.openDisputes then Step(a, Tagged(tid, ResolveOp, Fail(MissingDispute)))
    else
      match ToResolved(a.openDisputes[tid])
      case None => Step(a, Tagged(tid, ResolveOp, Fail(CannotResolve)))
      case Some(resolved) =>
        var applied := Apply(a, DisputeEffect(resolved));
        var b := applied.account;
        Step(b.(openDisputes := b.openDisputes - {tid}), Tagged(tid, ResolveOp, applied.outcome))
  }

  /**
    `chargeback`: checks the lock, that a dispute is open on the id and that it
    can be charged back. Then it applies the chargeback, removes the dispute
    and locks the account, WHETHER OR NOT the funds check passed.
   */
  function Chargeback(a: Account, tid: TransactionId): (r: Step<TransactionError>)
    ensures r.outcome.Fail? ==> r.outcome.error.tid == tid && r.outcome.error.operation == ChargebackOp
    ensures a.locked ==> r == Step(a, Fail(TransactionError(tid, ChargebackOp, AccountLocked)))
    ensures !a.locked && tid !in a.openDisputes ==>
              r == Step(a, Fail(TransactionError(tid, ChargebackOp, MissingDispute)))
    ensures !a.locked && tid in a.openDisputes && !a.openDisputes[tid].Initiated? ==>
              r == Step(a, Fail(TransactionError(tid, ChargebackOp, CannotChargeback)))
    ensures !a.locked && tid in a.openDisputes && a.openDisputes[tid].Initiated? ==>
              var amount := a.openDisputes[tid].amount;
              && r.account.openDisputes == a.openDisputes - {tid}
              && r.account.transactionLog == a.transactionLog
              && r.account.locked
              && r.account.client == a.client
              && r.account.available == a.available
              && (r.outcome.Pass? <==> a.available >= 0.0)
              && (r.outcome.Pass? ==> r.account.held == a.held - amount)
              && (r.outcome.Fail? ==> r.account.held == a.held && r.outcome.error.message == NotEnoughMoney)
  {
    var unlocked := IsNotLocked(a);
    if unlocked.Fail? then Step(a, Tagged(tid, ChargebackOp, unlocked))
    else if tid !in a.openDisputes then Step(a, Tagged(tid, ChargebackOp, Fail(MissingDispute)))
    else
      match ToChargebacked(a.openDisputes[tid])
      case None => Step(a, Tagged(tid, ChargebackOp, Fail(CannotChargeback)))
      case Some(charged) =>
        var applied := Apply(a, DisputeEffect(charged));
        var b := applied.account;
        Step(Lock(b.(openDisputes := b.openDisputes - {tid})), Tagged(tid, ChargebackOp, applied.outcome))
  }
}

=== FILE: account_properties.dfy ===
/**
  Properties relating several account operations: the invariant every
  operation preserves, the lock as a one-way switch, the dispute round trips,
  and the traces that show where the operations are not atomic.
 */
module AccountProperties {
  import opened Wrappers
  import opened Transactions
  import opened Errors
  import opened Accounts

  /** Every operation keeps the account invariant, whether it succeeds or fails. */
  lemma OperationsPreserveValid(a: Account, t: AmountTransaction, tid: TransactionId)
    requires Valid(a)
    ensures Valid(ProcessTransaction(a, t).account)
    ensures Valid(OpenDispute(a, tid).account)
    ensures Valid(Resolve(a, tid).account)
    ensures Valid(Chargeback(a, tid).account)
  {
  }

  /** Once locked, every operation fails with `AccountLocked` and changes nothing. */
  lemma LockedAccountIsFrozen(a: Account, t: AmountTransaction, tid: TransactionId)
    requires a.locked
    ensures ProcessTransaction(a, t) == Step(a, Fail(TransactionError(Tid(t), ProcessOp, AccountLocked)))
    ensures OpenDispute(a, tid) == Step(a, Fail(TransactionError(tid, DisputeOp, AccountLocked)))
    ensures Resolve(a, tid) == Step(a, Fail(TransactionError(tid, ResolveOp, AccountLocked)))
    ensures Chargeback(a, tid) == Step(a, Fail(TransactionError(tid, ChargebackOp, AccountLocked)))
  {
  }

  /** The lock is never cleared, and only a chargeback that got past its checks sets it. */
  lemma LockIsMonotonic(a: Account, t: AmountTransaction, tid: TransactionId)
    ensures ProcessTransaction(a, t).account.locked == a.locked
    ensures OpenDispute(a, tid).account.locked == a.locked
    ensures Resolve(a, tid).account.locked == a.locked
    ensures a.locked ==> Chargeback(a, tid).account.locked
    ensures !a.locked && Chargeback(a, tid).account.locked ==>
              tid in a.openDisputes && a.openDisputes[tid].Initiated?
  {
  }

  /**
    On a valid account the "could not resolve" and "could not chargeback"
    branches are unreachable, and a chargeback never fails for lack of funds.
   */
  lemma DisputeStateChecksNeverFail(a: Account, tid: TransactionId)
    requires Valid(a)
    ensures Resolve(a, tid).outcome != Fail(TransactionError(tid, ResolveOp, CannotResolve))
    ensures Chargeback(a, tid).outcome != Fail(TransactionError(tid, ChargebackOp, CannotChargeback))
    ensures Chargeback(a, tid).outcome != Fail(TransactionError(tid, ChargebackOp, NotEnoughMoney))
  {
  }

  /**
    A successful dispute followed by a resolve gives back exactly the account
    before the dispute; resolving a second time fails and changes nothing.
   */
  lemma ResolveUndoesDispute(a: Account, tid: TransactionId)
    requires Valid(a)
    requires OpenDispute(a, tid).outcome.Pass?
    ensures Resolve(OpenDispute(a, tid).account, tid) == Step(a, Pass)
    ensures Resolve(a, tid) == Step(a, Fail(TransactionError(tid, ResolveOp, MissingDispute)))
  {
  }

  /**
    A successful dispute followed by a chargeback: available stays at its
    post-dispute value, held drops by the disputed amount back to its
    pre-dispute value, the dispute is closed and the account is locked.
   */
  lemma ChargebackAfterDispute(a: Account, tid: TransactionId)
    requires Valid(a)
    requires OpenDispute(a, tid).outcome.Pass?
    ensures
      var b := OpenDispute(a, tid).account;
      var c := Chargeback(b, tid);
      var amount := a.transactionLog[tid].deposit.amount;
      && c.outcome.Pass?
      && c.account.available == b.available == a.available - amount
      && c.account.held == b.held - amount == a.held
      && Total(c.account) == Total(a) - amount
      && c.account.locked
      && c.account.openDisputes == a.openDisputes
      && c.account.transactionLog == a.transactionLog
  {
  }

  /** A resolved deposit stays in the log, so it can be disputed again. */
  lemma ResolvedDepositCanBeDisputedAgain(a: Account, tid: TransactionId)
    requires Valid(a)
    requires OpenDispute(a, tid).outcome.Pass?
    ensures OpenDispute(Resolve(OpenDispute(a, tid).account, tid).account, tid).outcome.Pass?
  {
  }

  /** The signed sum a series of deposits and withdrawals would add to available. */
  function SumToAdd(ts: seq<AmountTransaction>): Amount
    decreases |ts|
  {
    if |ts| == 0 then 0.0 else AmountEffect(ts[0]).toAdd + SumToAdd(ts[1..])
  }

  /**
    A series of deposits and withdrawals processed one after another, each
    on the account the previous one left. Only available and the log can
    change, and no logged entry is ever replaced.
   */
  function ProcessAll(a: Account, ts: seq<AmountTransaction>): (b: Account)
    ensures b.client == a.client && b.locked == a.locked
    ensures b.held == a.held && b.openDisputes == a.openDisputes
    ensures forall id :: id in a.transactionLog ==>
              id in b.transactionLog && b.transactionLog[id] == a.transactionLog[id]
    decreases |ts|
  {
    if |ts| == 0 then a else ProcessAll(ProcessTransaction(a, ts[0]).account, ts[1..])
  }

  /** Every id in the series is new to the log and used only once. */
  predicate FreshIds(a: Account, ts: seq<AmountTransaction>)
  {
    && (forall i :: 0 <= i < |ts| ==> Tid(ts[i]) !in a.transactionLog)
    && (forall i, j :: 0 <= i < j < |ts| ==> Tid(ts[i]) != Tid(ts[j]))
  }

  /** Splitting one transaction off the front of a prefix sum. */
  lemma SumToAddPrefix(ts: seq<AmountTransaction>, k: nat)
    requires 0 < |ts| && k < |ts|
    ensures SumToAdd(ts[..k + 1]) == AmountEffect(ts[0]).toAdd + SumToAdd(ts[1..][..k])
  {
    assert ts[..k + 1][1..] == ts[1..][..k];
  }

  /**
    Over a series of deposits and withdrawals with new, distinct ids on an
    unlocked account, where no prefix drives available below zero, every
    transaction is accepted and logged, and the final available is the
    starting value plus the signed sum; held does not move.
   */
  lemma {:induction false} SeriesSumsUp(a: Account, ts: seq<AmountTransaction>)
    requires !a.locked
    requires FreshIds(a, ts)
    requires forall k :: 0 <= k <= |ts| ==> a.available + SumToAdd(ts[..k]) >= 0.0
    ensures ProcessAll(a, ts).available == a.available + SumToAdd(ts)
    ensures ProcessAll(a, ts).held == a.held
    ensures forall i :: 0 <= i < |ts| ==>
              Tid(ts[i]) in ProcessAll(a, ts).transactionLog && ProcessAll(a, ts).transactionLog[Tid(ts[i])] == ts[i]
    decreases |ts|
  {
    if |ts| > 0 {
      var t := ts[0];
      SumToAddPrefix(ts, 0);
      assert a.available + SumToAdd(ts[..1]) >= 0.0;
      var b := ProcessTransaction(a, t).account;
      assert b.available == a.available + AmountEffect(t).toAdd;
      forall k | 0 <= k <= |ts[1..]|
        ensures b.available + SumToAdd(ts[1..][..k]) >= 0.0
      {
        SumToAddPrefix(ts, k);
        assert a.available + SumToAdd(ts[..k + 1]) >= 0.0;
      }
      forall i | 0 <= i < |ts[1..]|
        ensures Tid(ts[1..][i]) !in b.transactionLog
      {
        assert Tid(ts[i + 1]) != Tid(ts[0]);
      }
      assert FreshIds(b, ts[1..]);
      SeriesSumsUp(b, ts[1..]);
      assert ts == [t] + ts[1..];
      forall i | 0 <= i < |ts|
        ensures Tid(ts[i]) in ProcessAll(a, ts).transactionLog && ProcessAll(a, ts).transactionLog[Tid(ts[i])] == ts[i]
      {
        if i > 0 {
          assert ts[i] == ts[1..][i - 1];
        }
      }
    }
  }

  /** The log and the accounts of the non-atomic dispute trace below. */
  function TraceLog(): map<TransactionId, AmountTransaction>
  {
    map[1 := MakeDeposit(1, 5.0), 2 := MakeWithdraw(2, 5.0)]
  }

  lemma TraceDepositThenWithdraw()
    ensures ProcessTransaction(New(1), MakeDeposit(1, 5.0))
            == Step(Account(1, 5.0, 0.0, false, map[1 := MakeDeposit(1, 5.0)], map[]), Pass)
    ensures ProcessTransaction(Account(1, 5.0, 0.0, false, map[1 := MakeDeposit(1, 5.0)], map[]), MakeWithdraw(2, 5.0))
            == Step(Account(1, 0.0, 0.0, false, TraceLog(), map[]), Pass)
  {
  }

  lemma TraceDisputeThenResolve()
    ensures OpenDispute(Account(1, 0.0, 0.0, false, TraceLog(), map[]), 1)
            == Step(Account(1, 0.0, 0.0, false, TraceLog(), map[1 := Initiated(5.0)]),
                    Fail(TransactionError(1, DisputeOp, NotEnoughMoney)))
    ensures Resolve(Account(1, 0.0, 0.0, false, TraceLog(), map[1 := Initiated(5.0)]), 1)
            == Step(Account(1, 5.0, -5.0, false, TraceLog(), map[]), Pass)
  {
  }

  /**
    `open_dispute` is not atomic: deposit 5, withdraw 5, then dispute the
    deposit. The dispute fails for lack of funds but is recorded anyway, and a
    later resolve credits available and drives held negative.
   */
  lemma FailedDisputeStillRecorded()
    ensures
      var a1 := ProcessTransaction(New(1), MakeDeposit(1, 5.0));
      var a2 := ProcessTransaction(a1.account, MakeWithdraw(2, 5.0));
      var a3 := OpenDispute(a2.account, 1);
      var a4 := Resolve(a3.account, 1);
      && a1.outcome.Pass? && a2.outcome.Pass?
      && a3.outcome == Fail(TransactionError(1, DisputeOp, NotEnoughMoney))
      && a3.account.available == 0.0 && a3.account.held == 0.0
      && a3.account.openDisputes == map[1 := Initiated(5.0)]
      && a4.outcome.Pass?
      && a4.account.available == 5.0 && a4.account.held == -5.0
      && a4.account.openDisputes == map[]
  {
    TraceDepositThenWithdraw();
    TraceDisputeThenResolve();
  }
}

=== FILE: engine.dfy ===
/**
  The driving loop: a fold of input records into a client-keyed map of
  accounts, creating each account on first reference and swallowing (but
  reporting) every per-record error; and the ordering of the final snapshot.
  Reading and writing the delimited files is not part of this model.
 */
module Engine {
  import opened Wrappers
  import opened Transactions
  import opened Errors
  import opened Accounts

  /** One decoded input row: type, client, transaction id and optional amount. */
  datatype Record = Record(kind: string, client: ClientId, tx: TransactionId, amount: Option<Amount>)

  type AccountMap = map<ClientId, Account>

  /** The fold's state: the accounts, and the errors reported so far, in order. */
  datatype RunResult = RunResult(accounts: AccountMap, errors: seq<TransactionError>)

  /** One snapshot row: client, available, held, total, locked. */
  datatype Row = Row(client: ClientId, available: Amount, held: Amount, total: Amount, locked: bool)

  const Header: seq<string> := ["client", "available", "held", "total", "locked"]

  /** The five record types the loop recognises. */
  predicate IsKnownKind(kind: string)
  {
    kind == "deposit" || kind == "withdraw" || kind == "dispute" || kind == "resolve" || kind == "chargeback"
  }

  /** Deposit and withdraw rows must carry an amount: a missing one aborts the run. */
  predicate HasAmount(r: Record)
  {
    (r.kind == "deposit" || r.kind == "withdraw") ==> r.amount.Some?
  }

  predicate AllHaveAmounts(records: seq<Record>)
  {
    forall i :: 0 <= i < |records| ==> HasAmount(records[i])
  }

  /** Every account is stored under its own client id and satisfies the account invariant. */
  ghost predicate WellFormed(accounts: AccountMap)
  {
    forall c :: c in accounts ==> accounts[c].client == c && Valid(accounts[c])
  }

  /** The set of clients the records reference. */
  function ClientsOf(records: seq<Record>): set<ClientId>
  {
    set i | 0 <= i < |records| :: records[i].client
  }

  /** The account for a client: the stored one, or a fresh one on first reference. */
  function Lookup(accounts: AccountMap, client: ClientId): (a: Account)
    ensures client in accounts ==> a == accounts[client]
    ensures client !in accounts ==> a == New(client)
  {
    if client in accounts then accounts[client] else New(client)
  }

  /**
    The match on the record type: each recognised type calls exactly one
    account operation; any other type is an error that calls none.
   */
  function Dispatch(a: Account, r: Record): (s: Step<TransactionError>)
    requires HasAmount(r)
    ensures !IsKnownKind(r.kind) ==> s == Step(a, Fail(TransactionError(r.tx, r.kind, UnknownTransactionType)))
    ensures Valid(a) ==> Valid(s.account)
    ensures s.account.client == a.client
    ensures a.locked ==> s.account == a && s.outcome.Fail?
    ensures !a.locked && s.account.locked ==> r.kind == "chargeback"
  {
    match r.kind
    case "deposit" => ProcessTransaction(a, MakeDeposit(r.tx, r.amount.value))
    case "withdraw" => ProcessTransaction(a, MakeWithdraw(r.tx, r.amount.value))
    case "dispute" => OpenDispute(a, r.tx)
    case "resolve" => Resolve(a, r.tx)
    case "chargeback" => Chargeback(a, r.tx)
    case _ => Step(a, Fail(TransactionError(r.tx, r.kind, UnknownTransactionType)))
  }

  /** The dispatch table: which account operation each recognised record type calls. */
  lemma DispatchTable(a: Account, r: Record)
    requires HasAmount(r)
    ensures r.kind == "deposit" ==> Dispatch(a, r) == ProcessTransaction(a, MakeDeposit(r.tx, r.amount.value))
    ensures r.kind == "withdraw" ==> Dispatch(a, r) == ProcessTransaction(a, MakeWithdraw(r.tx, r.amount.value))
    ensures r.kind == "dispute" ==> Dispatch(a, r) == OpenDispute(a, r.tx)
    ensures r.kind == "resolve" ==> Dispatch(a, r) == Resolve(a, r.tx)
    ensures r.kind == "chargeback" ==> Dispatch(a, r) == Chargeback(a, r.tx)
  {
  }

  /** One iteration of the loop body: look up or create the account, then dispatch. */
  function ProcessRecord(accounts: AccountMap, r: Record): (res: (AccountMap, Outcome<TransactionError>))
    requires HasAmount(r)
    ensures res.0.Keys == accounts.Keys + {r.client}
    ensures forall c :: c in accounts && c != r.client ==> res.0[c] == accounts[c]
    ensures res.0[r.client] == Dispatch(Lookup(accounts, r.client), r).account
    ensures res.1 == Dispatch(Lookup(accounts, r.client), r).outcome
  {
    var step := Dispatch(Lookup(accounts, r.client), r);
    (accounts[r.client := step.account], step.outcome)
  }

  /** Processing a record keeps every account well keyed and valid, the new one included. */
  lemma ProcessRecordPreservesWellFormed(accounts: AccountMap, r: Record)
    requires HasAmount(r)
    requires WellFormed(accounts)
    ensures WellFormed(ProcessRecord(accounts, r).0)
  {
  }

  /** What the loop reports for one record: its error, if it failed. */
  function Reported(o: Outcome<TransactionError>): (e: seq<TransactionError>)
    ensures |e| <= 1
    ensures e == [] <==> o.Pass?
    ensures o.Fail? ==> e == [o.error]
  {
    if o.Fail? then [o.error] else []
  }

  /**
    The fold over the records: every record is processed in order, a failed
    one contributes its error and the state its operation left, and the fold
    goes on with the next record.
   */
  function RunFrom(accounts: AccountMap, records: seq<Record>): (res: RunResult)
    requires AllHaveAmounts(records)
    ensures res.accounts.Keys == accounts.Keys + ClientsOf(records)
    ensures |res.errors| <= |records|
    decreases |records|
  {
    if |records| == 0 then
      RunResult(accounts, [])
    else
      var (next, outcome) := ProcessRecord(accounts, records[0]);
      var rest := RunFrom(next, records[1..]);
      assert ClientsOf(records) == {records[0].client} + ClientsOf(records[1..]) by {
        forall c | c in ClientsOf(records)
          ensures c in {records[0].client} + ClientsOf(records[1..])
        {
          var i :| 0 <= i < |records| && records[i].client == c;
          if i > 0 {
            assert records[1..][i - 1].client == c;
          }
        }
      }
      RunResult(rest.accounts, Reported(outcome) + rest.errors)
  }

  /** `engine::run` without its I/O: the fold from an empty map. */
  function Run(records: seq<Record>): (res: RunResult)
    requires AllHaveAmounts(records)
    ensures res.accounts.Keys == ClientsOf(records)
    ensures |res.errors| <= |records|
    ensures WellFormed(res.accounts)
  {
    RunPreservesWellFormed(map[], records);
    RunFrom(map[], records)
  }

  /** Every account the fold produces is well keyed and satisfies the account invariant. */
  lemma {:induction false} RunPreservesWellFormed(accounts: AccountMap, records: seq<Record>)
    requires AllHaveAmounts(records)
    requires WellFormed(accounts)
    ensures WellFormed(RunFrom(accounts, records).accounts)
    decreases |records|
  {
    if |records| > 0 {
      var (next, _) := ProcessRecord(accounts, records[0]);
      ProcessRecordPreservesWellFormed(accounts, records[0]);
      RunPreservesWellFormed(next, records[1..]);
    }
  }

  /** The records that name client `c`, in their original order. */
  function OwnRecords(records: seq<Record>, c: ClientId): (own: seq<Record>)
    ensures |own| <= |records|
    ensures forall i :: 0 <= i < |own| ==> own[i].client == c
    ensures AllHaveAmounts(records) ==> AllHaveAmounts(own)
    ensures c !in ClientsOf(records) ==> own == []
    decreases |records|
  {
    if |records| == 0 then []
    else
      var rest := OwnRecords(records[1..], c);
      assert c !in ClientsOf(records) ==> c !in ClientsOf(records[1..]) by {
        if c in ClientsOf(records[1..]) {
          var i :| 0 <= i < |records[1..]| && records[1..][i].client == c;
          assert records[i + 1].client == c;
        }
      }
      if records[0].client == c then [records[0]] + rest else rest
  }

  /**
    One account on its own: the records dispatched to it one after another,
    failures included, as a single client sees the run.
   */
  function FoldAccount(a: Account, records: seq<Record>): (b: Account)
    requires AllHaveAmounts(records)
    ensures b.client == a.client
    ensures a.locked ==> b == a
    ensures Valid(a) ==> Valid(b)
    decreases |records|
  {
    if |records| == 0 then a
    else FoldAccount(Dispatch(a, records[0]).account, records[1..])
  }

  /**
    Clients do not interact: the run leaves each client's account exactly as
    dispatching that client's own records, in order, to its starting account
    would. The starting account is the stored one or a fresh one.
   */
  lemma {:induction false} RunProjectsToClient(accounts: AccountMap, records: seq<Record>, c: ClientId)
    requires AllHaveAmounts(records)
    requires c in accounts || c in ClientsOf(records)
    ensures c in RunFrom(accounts, records).accounts
    ensures RunFrom(accounts, records).accounts[c] == FoldAccount(Lookup(accounts, c), OwnRecords(records, c))
    decreases |records|
  {
    if |records| > 0 {
      var r := records[0];
      var (next, _) := ProcessRecord(accounts, r);
      if c !in next {
        var i :| 0 <= i < |records| && records[i].client == c;
        assert records[1..][i - 1].client == c;
      }
      RunProjectsToClient(next, records[1..], c);
      var rest := OwnRecords(records[1..], c);
      if r.client == c {
        assert OwnRecords(records, c) == [r] + rest;
        assert ([r] + rest)[1..] == rest;
      } else {
        assert OwnRecords(records, c) == rest;
        assert Lookup(next, c) == Lookup(accounts, c);
      }
    }
  }

  /** A locked account is left exactly as it is by every later record. */
  lemma {:induction false} LockedAccountStaysFrozen(accounts: AccountMap, records: seq<Record>, c: ClientId)
    requires AllHaveAmounts(records)
    requires c in accounts && accounts[c].locked
    ensures RunFrom(accounts, records).accounts[c] == accounts[c]
    decreases |records|
  {
    if |records| > 0 {
      var (next, _) := ProcessRecord(accounts, records[0]);
      LockedAccountStaysFrozen(next, records[1..], c);
    }
  }

  /** An account no record refers to is left exactly as it is. */
  lemma {:induction false} UnreferencedAccountUnchanged(accounts: AccountMap, records: seq<Record>, c: ClientId)
    requires AllHaveAmounts(records)
    requires c in accounts && c !in ClientsOf(records)
    ensures RunFrom(accounts, records).accounts[c] == accounts[c]
    decreases |records|
  {
    if |records| > 0 {
      var (next, _) := ProcessRecord(accounts, records[0]);
      assert records[0].client in ClientsOf(records);
      assert ClientsOf(records[1..]) <= ClientsOf(records) by {
        forall d | d in ClientsOf(records[1..]) ensures d in ClientsOf(records) {
          var i :| 0 <= i < |records[1..]| && records[1..][i].client == d;
          assert records[i + 1].client == d;
        }
      }
      UnreferencedAccountUnchanged(next, records[1..], c);
    }
  }

  /** The records still to process after the first `i`, and what the loop has reported so far, determine the run. */
  ghost predicate LoopInvariant(records: seq<Record>, i: nat, accounts: AccountMap, errors: seq<TransactionError>)
    requires AllHaveAmounts(records) && i <= |records|
  {
    var rest := RunFrom(accounts, records[i..]);
    Run(records) == RunResult(rest.accounts, errors + rest.errors)
  }

  /** One loop iteration keeps the loop invariant. */
  lemma LoopStep(records: seq<Record>, i: nat, accounts: AccountMap, errors: seq<TransactionError>)
    requires AllHaveAmounts(records) && i < |records|
    requires LoopInvariant(records, i, accounts, errors)
    ensures
      var step := ProcessRecord(accounts, records[i]);
      LoopInvariant(records, i + 1, step.0, errors + Reported(step.1))
  {
  }

  /**
    The loop of `engine::run`: the map is updated in place record by record
    and errors are reported as they occur. It computes exactly the fold.
   */
  method RunLoop(records: seq<Record>) returns (accounts: AccountMap, errors: seq<TransactionError>)
    requires AllHaveAmounts(records)
    ensures RunResult(accounts, errors) == Run(records)
    ensures accounts.Keys == ClientsOf(records)
    ensures WellFormed(accounts)
  {
    accounts := map[];
    errors := [];
    var i := 0;
    while i < |records|
      invariant 0 <= i <= |records|
      invariant WellFormed(accounts)
      invariant LoopInvariant(records, i, accounts, errors)
    {
      LoopStep(records, i, accounts, errors);
      ProcessRecordPreservesWellFormed(accounts, records[i]);
      var step := ProcessRecord(accounts, records[i]);
      accounts := step.0;
      errors := errors + Reported(step.1);
      i := i + 1;
    }
    assert records[i..] == [];
  }

  /** The snapshot row of an account; `total` is the sum of the two balances. */
  function Serialize(a: Account): (row: Row)
    ensures row.client == a.client && row.locked == a.locked
    ensures row.available == a.available && row.held == a.held
    ensures row.total == Total(a)
  {
    Row(a.client, a.available, a.held, a.available + a.held, a.locked)
  }

  predicate StrictlyIncreasing(s: seq<ClientId>)
  {
    forall i, j :: 0 <= i < j < |s| ==> s[i] < s[j]
  }

  /** The keys of the map in ascending order, each exactly once. */
  method SortedClients(accounts: AccountMap) returns (keys: seq<ClientId>)
    ensures StrictlyIncreasing(keys)
    ensures forall c :: c in accounts <==> c in keys
  {
    keys := [];
    var c: int := 0;
    while c < 0x1_0000
      invariant 0 <= c <= 0x1_0000
      invariant StrictlyIncreasing(keys)
      invariant forall j :: 0 <= j < |keys| ==> keys[j] < c
      invariant forall k: ClientId :: k < c ==> (k in accounts <==> k in keys)
    {
      if c in accounts {
        keys := keys + [c];
      }
      c := c + 1;
    }
  }

  /**
    `engine::write` without the formatting: the fixed header, then one row per
    account, visiting the client ids in ascending order.
   */
  method Write(accounts: AccountMap) returns (header: seq<string>, keys: seq<ClientId>, rows: seq<Row>)
    ensures header == ["client", "available", "held", "total", "locked"]
    ensures StrictlyIncreasing(keys)
    ensures forall c :: c in accounts <==> c in keys
    ensures |rows| == |keys| == |accounts.Keys|
    ensures forall i :: 0 <= i < |rows| ==> rows[i] == Serialize(accounts[keys[i]])
    ensures WellFormed(accounts) ==> forall i, j :: 0 <= i < j < |rows| ==> rows[i].client < rows[j].client
  {
    header := Header;
    keys := SortedClients(accounts);
    rows := [];
    var i := 0;
    while i < |keys|
      invariant 0 <= i <= |keys|
      invariant |rows| == i
      invariant forall j :: 0 <= j < i ==> rows[j] == Serialize(accounts[keys[j]])
    {
      rows := rows + [Serialize(accounts[keys[i]])];
      i := i + 1;
    }
    KeysCardinality(keys, accounts.Keys);
  }

  /** A strictly increasing sequence has as many elements as the set it enumerates. */
  lemma {:induction false} KeysCardinality(keys: seq<ClientId>, s: set<ClientId>)
    requires StrictlyIncreasing(keys)
    requires forall c :: c in s <==> c in keys
    ensures |keys| == |s|
    decreases |keys|
  {
    if |keys| > 0 {
      var last := keys[|keys| - 1];
      var init := keys[..|keys| - 1];
      assert last !in init;
      forall c | c in s - {last} ensures c in init {
        var i :| 0 <= i < |keys| && keys[i] == c;
      }
      KeysCardinality(init, s - {last});
    }
  }
}

=== FILE: errors.dfy ===
/**
  Per-transaction errors. The source builds an error from the transaction id,
  the name of the failing operation and a message string; here the message is
  a closed enumeration with one constructor per message the core can produce.
 */
module Errors {
  import opened Transactions

  datatype Message =
    | AccountLocked            // "Account is locked"
    | AlreadyProcessed         // "Transaction is already processed"
    | NotEnoughMoney           // "Not enough money to apply transaction"
    | MissingTransaction       // "Missing transaction for the client"
    | DisputeAlreadyOpen       // "Dispute is already open"
    | NotDisputable            // "Incorrect type of transaction for dispute"
    | MissingDispute           // "Missing dipsute for transaction"
    | CannotResolve            // "Could not resolve such dispute"
    | CannotChargeback         // "Could not chargeback such dispute"
    | UnknownTransactionType   // "Unknown transaction type"

  datatype TransactionError = TransactionError(tid: TransactionId, operation: string, message: Message)
}

=== FILE: scenarios.dfy ===
/**
  End-to-end traces of the ledger: the concrete accounts a short sequence of
  operations produces, and two facts about the driving loop that such traces
  rely on (transaction ids are scoped per client; an unknown record type only
  creates the account it names).
 */
module Scenarios {
  import opened Wrappers
  import opened Transactions
  import opened Errors
  import opened Accounts
  import opened Engine

  /** Client 1's log after its two deposits of the deposit-and-withdraw trace. */
  function TwoDeposits(): map<TransactionId, AmountTransaction>
  {
    map[1 := MakeDeposit(1, 5.0), 3 := MakeDeposit(3, 2.0)]
  }

  /** Deposit 5 (tid 1), then deposit 2 (tid 3): 7 available. */
  lemma TwoDepositsAccumulate()
    ensures ProcessTransaction(New(1), MakeDeposit(1, 5.0))
            == Step(Account(1, 5.0, 0.0, false, map[1 := MakeDeposit(1, 5.0)], map[]), Pass)
    ensures ProcessTransaction(Account(1, 5.0, 0.0, false, map[1 := MakeDeposit(1, 5.0)], map[]), MakeDeposit(3, 2.0))
            == Step(Account(1, 7.0, 0.0, false, TwoDeposits(), map[]), Pass)
  {
  }

  /**
    Continuing the trace above, withdraw 1.5 (tid 4): 5.5 available, nothing
    held, not locked; withdrawing 6 instead fails and changes nothing.
   */
  lemma WithdrawalAfterDeposits()
    ensures ProcessTransaction(Account(1, 7.0, 0.0, false, TwoDeposits(), map[]), MakeWithdraw(4, 1.5))
            == Step(Account(1, 5.5, 0.0, false, TwoDeposits()[4 := MakeWithdraw(4, 1.5)], map[]), Pass)
    ensures ProcessTransaction(Account(1, 5.5, 0.0, false, TwoDeposits()[4 := MakeWithdraw(4, 1.5)], map[]), MakeWithdraw(5, 6.0))
            == Step(Account(1, 5.5, 0.0, false, TwoDeposits()[4 := MakeWithdraw(4, 1.5)], map[]),
                    Fail(TransactionError(5, ProcessOp, NotEnoughMoney)))
  {
  }

  /**
    The second client of the same stream: deposit 2 (tid 2), then a
    withdrawal of 3 (tid 5) fails for lack of funds and changes nothing.
   */
  lemma SecondClientOverdraft()
    ensures ProcessTransaction(New(2), MakeDeposit(2, 2.0))
            == Step(Account(2, 2.0, 0.0, false, map[2 := MakeDeposit(2, 2.0)], map[]), Pass)
    ensures ProcessTransaction(Account(2, 2.0, 0.0, false, map[2 := MakeDeposit(2, 2.0)], map[]), MakeWithdraw(5, 3.0))
            == Step(Account(2, 2.0, 0.0, false, map[2 := MakeDeposit(2, 2.0)], map[]),
                    Fail(TransactionError(5, ProcessOp, NotEnoughMoney)))
  {
  }

  /** Client 1's log in the single-deposit traces. */
  function OneDeposit(): map<TransactionId, AmountTransaction>
  {
    map[1 := MakeDeposit(1, 5.0)]
  }

  /** Deposit 5, dispute it, charge it back: nothing available, nothing held, locked. */
  lemma DisputeThenChargeback()
    ensures ProcessTransaction(New(1), MakeDeposit(1, 5.0))
            == Step(Account(1, 5.0, 0.0, false, OneDeposit(), map[]), Pass)
    ensures OpenDispute(Account(1, 5.0, 0.0, false, OneDeposit(), map[]), 1)
            == Step(Account(1, 0.0, 5.0, false, OneDeposit(), map[1 := Initiated(5.0)]), Pass)
    ensures Chargeback(Account(1, 0.0, 5.0, false, OneDeposit(), map[1 := Initiated(5.0)]), 1)
            == Step(Account(1, 0.0, 0.0, true, OneDeposit(), map[]), Pass)
  {
  }

  /**
    Deposit 5, dispute it, resolve it, resolve it again: the first resolve
    gives back the account as it was after the deposit; the second fails
    because no dispute is open, and changes nothing.
   */
  lemma ResolveTwice()
    ensures OpenDispute(Account(1, 5.0, 0.0, false, OneDeposit(), map[]), 1)
            == Step(Account(1, 0.0, 5.0, false, OneDeposit(), map[1 := Initiated(5.0)]), Pass)
    ensures Resolve(Account(1, 0.0, 5.0, false, OneDeposit(), map[1 := Initiated(5.0)]), 1)
            == Step(Account(1, 5.0, 0.0, false, OneDeposit(), map[]), Pass)
    ensures Resolve(Account(1, 5.0, 0.0, false, OneDeposit(), map[]), 1)
            == Step(Account(1, 5.0, 0.0, false, OneDeposit(), map[]),
                    Fail(TransactionError(1, ResolveOp, MissingDispute)))
  {
  }

  /**
    Transaction ids are scoped per client: a deposit record is accepted and
    logged under its own client whenever that client's account is unlocked and
    has not used the id, whatever the other clients' logs hold.
   */
  lemma TransactionIdsArePerClient(accounts: AccountMap, r: Record)
    requires r.kind == "deposit" && r.amount.Some? && r.amount.value >= 0.0
    requires r.client in accounts ==> !accounts[r.client].locked && r.tx !in accounts[r.client].transactionLog
    requires WellFormed(accounts)
    ensures ProcessRecord(accounts, r).1 == Pass
    ensures ProcessRecord(accounts, r).0[r.client].transactionLog[r.tx] == MakeDeposit(r.tx, r.amount.value)
  {
  }

  /**
    A dispute record names a transaction id that only the record's own client
    can have logged: with no such entry in that client's log it fails.
   */
  lemma DisputeLooksOnlyAtOwnLog(accounts: AccountMap, r: Record)
    requires r.kind == "dispute"
    requires r.client in accounts ==> !accounts[r.client].locked && r.tx !in accounts[r.client].transactionLog
    ensures ProcessRecord(accounts, r).1 == Fail(TransactionError(r.tx, DisputeOp, MissingTransaction))
    ensures ProcessRecord(accounts, r).0 == accounts[r.client := Lookup(accounts, r.client)]
  {
  }

  /**
    An unrecognised record type calls no account operation: it reports an error
    and leaves the map as it was, except that the client's account now exists.
   */
  lemma UnknownKindOnlyCreatesAccount(accounts: AccountMap, r: Record)
    requires !IsKnownKind(r.kind)
    ensures ProcessRecord(accounts, r)
            == (accounts[r.client := Lookup(accounts, r.client)],
                Fail(TransactionError(r.tx, r.kind, UnknownTransactionType)))
  {
  }
}

=== FILE: transaction.dfy ===
/**
  The transaction effect model: funds-moving transactions (deposit, withdraw)
  and the states of a dispute (initiated, resolved, charged back). Every value
  has a pair of effects, what it adds to the available balance and what it adds
  to the held balance; the account applies that pair.
 */
module Transactions {
  import opened Wrappers

  /** Transaction ids are unsigned 32-bit integers. */
  type TransactionId = x: int | 0 <= x < 0x1_0000_0000

  /** Amounts are exact decimals; nothing in the ledger checks their sign. */
  type Amount = real

  /** The effect pair of the applicable-transaction capability: `to_add` and `to_hold`. */
  datatype Effect = Effect(toAdd: Amount, toHold: Amount)

  /** The capability's default `to_hold`, used by every transaction that does not override it. */
  const DefaultToHold: Amount := 0.0

  datatype DepositTransaction = DepositTransaction(tid: TransactionId, amount: Amount)

  datatype WithdrawTransaction = WithdrawTransaction(tid: TransactionId, amount: Amount)

  /** A funds-moving transaction. */
  datatype AmountTransaction =
    | Deposit(deposit: DepositTransaction)
    | Withdraw(withdraw: WithdrawTransaction)

  /** The amount a funds-moving transaction was constructed with. */
  function AmountOf(t: AmountTransaction): Amount
  {
    match t
    case Deposit(d) => d.amount
    case Withdraw(w) => w.amount
  }

  /**
    The `tid()` of a funds-moving transaction: together with its variant and
    amount it determines the transaction completely.
   */
  function Tid(t: AmountTransaction): (id: TransactionId)
    ensures t.Deposit? ==> t == Deposit(DepositTransaction(id, AmountOf(t)))
    ensures t.Withdraw? ==> t == Withdraw(WithdrawTransaction(id, AmountOf(t)))
  {
    match t
    case Deposit(d) => d.tid
    case Withdraw(w) => w.tid
  }

  /** `AmountTransaction::deposit`. */
  function MakeDeposit(tid: TransactionId, amount: Amount): (t: AmountTransaction)
    ensures t.Deposit?
    ensures Tid(t) == tid && AmountOf(t) == amount
  {
    Deposit(DepositTransaction(tid, amount))
  }

  /** `AmountTransaction::withdraw`. */
  function MakeWithdraw(tid: TransactionId, amount: Amount): (t: AmountTransaction)
    ensures t.Withdraw?
    ensures Tid(t) == tid && AmountOf(t) == amount
  {
    Withdraw(WithdrawTransaction(tid, amount))
  }

  /**
    The effect of a funds-moving transaction: a deposit adds its amount to
    available, a withdrawal subtracts it; `to_hold` is the capability's default.
   */
  function AmountEffect(t: AmountTransaction): (e: Effect)
    ensures e.toHold == 0.0
    ensures t.Deposit? ==> e.toAdd == AmountOf(t)
    ensures t.Withdraw? ==> e.toAdd == -AmountOf(t)
  {
    match t
    case Deposit(d) => Effect(d.amount, DefaultToHold)
    case Withdraw(w) => Effect(-w.amount, DefaultToHold)
  }

  /** The state of a dispute on a deposit, carrying the disputed amount. */
  datatype DisputableTransaction =
    | Initiated(amount: Amount)
    | Resolved(amount: Amount)
    | ChargedBacked(amount: Amount)

  /** `to_resolved`: only an initiated dispute can be resolved. */
  function ToResolved(d: DisputableTransaction): (r: Option<DisputableTransaction>)
    ensures r.Some? <==> d.Initiated?
    ensures r.Some? ==> r.value.Resolved? && r.value.amount == d.amount
  {
    match d
    case Initiated(amount) => Some(Resolved(amount))
    case _ => None
  }

  /** `to_chargebacked`: only an initiated dispute can be charged back. */
  function ToChargebacked(d: DisputableTransaction): (r: Option<DisputableTransaction>)
    ensures r.Some? <==> d.Initiated?
    ensures r.Some? ==> r.value.ChargedBacked? && r.value.amount == d.amount
  {
    match d
    case Initiated(amount) => Some(ChargedBacked(amount))
    case _ => None
  }

  /** The effect of a dispute state. */
  function DisputeEffect(d: DisputableTransaction): (e: Effect)
    ensures d.Initiated? || d.Resolved? ==> e.toAdd + e.toHold == 0.0
    ensures d.Initiated? ==> e.toHold == d.amount
    ensures d.Resolved? ==> e.toAdd == d.amount
    ensures d.ChargedBacked? ==> e.toAdd == 0.0 && e.toHold == -d.amount
  {
    match d
    case Initiated(amount) => Effect(-amount, amount)
    case Resolved(amount) => Effect(amount, -amount)
    case ChargedBacked(amount) => Effect(0.0, -amount)
  }

  /** `to_disputable`: a deposit opens a dispute over its whole amount. */
  function ToDisputable(d: DepositTransaction): (r: DisputableTransaction)
    ensures r.Initiated? && r.amount == d.amount
  {
    Initiated(d.amount)
  }

  /**
    The constructors are injective and never coincide: two transactions built
    from different ids or amounts, or as different variants, are different log
    entries.
   */
  lemma ConstructorsAreInjective(tid1: TransactionId, amount1: Amount, tid2: TransactionId, amount2: Amount)
    ensures MakeDeposit(tid1, amount1) == MakeDeposit(tid2, amount2) <==> tid1 == tid2 && amount1 == amount2
    ensures MakeWithdraw(tid1, amount1) == MakeWithdraw(tid2, amount2) <==> tid1 == tid2 && amount1 == amount2
    ensures MakeDeposit(tid1, amount1) != MakeWithdraw(tid2, amount2)
  {
  }

  /** Resolved and charged-back disputes are terminal: no further conversion exists. */
  lemma TerminalDisputeStates(d: DisputableTransaction)
    requires !d.Initiated?
    ensures ToResolved(d) == None && ToChargebacked(d) == None
  {
  }

  /**
    Opening a dispute on a deposit and then resolving it nets to zero on both
    balances; charging it back instead removes the amount from the sum.
   */
  lemma DisputeRoundTrip(d: DepositTransaction)
    ensures ToResolved(ToDisputable(d)).Some?
    ensures ToChargebacked(ToDisputable(d)).Some?
    ensures
      var opening := DisputeEffect(ToDisputable(d));
      var closed := DisputeEffect(ToResolved(ToDisputable(d)).value);
      opening.toAdd + closed.toAdd == 0.0 && opening.toHold + closed.toHold == 0.0
    ensures
      var opening := DisputeEffect(ToDisputable(d));
      var closed := DisputeEffect(ToChargebacked(ToDisputable(d)).value);
      opening.toAdd + closed.toAdd == -d.amount && opening.toHold + closed.toHold == 0.0
  {
  }
}

=== FILE: wrappers.dfy ===
/** Option and outcome datatypes used across the ledger model. */
module Wrappers {

  /** Rust's `Option<T>`. */
  datatype Option<+T> = None | Some(value: T)

  /** Rust's `Result<(), E>`: success carries nothing, failure carries an error value. */
  datatype Outcome<+E> = Pass | Fail(error: E)
}
